=== FILE: README.md ===
# Word-quiz session engine

A Dafny model of the session logic of a single-page spelling quiz. The page
holds a catalog of word records, each with term columns (`au1`, `au2`,
`sp1`, `sp2`, `su1`, `su2`) that are either filled or `null`. The user picks
a filter (`all`, `learned`, `not-learned` or a term column). The page
shuffles the filter's words and shows them one at a time with previous/next
buttons and an `n / total` counter. After every render it saves
`{order, filter, index}` to browser storage, so that a reload resumes the
same session.

Modules, one per component of `script.js`:

- `Optional` (`optional.dfy`): `Option`, standing for JSON `null` and missing keys.
- `Catalog` (`catalog.dfy`): word records and filter resolution (`WordsForFilter`).
  Also the term columns the menu offers (`AvailableFilters`, `MenuOptions`) and the startup filter.
- `FisherYates` (`shuffle.dfy`): the swap-loop shuffle.
  `Math.random` is replaced by an oracle `rand: nat -> nat`.
  The swap partner at cursor `i` is `rand(i) % (i + 1)`, which ranges over exactly `0..i`, as `Math.floor(Math.random() * (i + 1))` does.
- `Persistence` (`persistence.dfy`): the storage entry.
  It is either vacant, unreadable, or holds a snapshot.
  A flag says whether the host accepts writes and removals (fixed for a run, see "Left out"); the source swallows these errors, so a rejected write or removal changes nothing.
- `Session` (`session.dfy`): the engine state `Engine(filter, order, index, store)` and every handler as a function or method that returns the next state.
  The storage entry is an ordinary field of that state, so "the entry mirrors the session" is the predicate `Mirrors`.

The central results:

- Filter resolution is the ordered selection of the kept records' words (`SelectKeepsInOrder`).
  `learned` and `not-learned` partition the catalog.
- The menu's column list is the unique strictly sorted listing of the used columns.
- The shuffle is a permutation.
- A restore adopts the snapshot exactly when all four checks pass; otherwise the session starts fresh.
- Navigation never leaves the order, and a disabled button is exactly a no-op click.
- Reloading the page brings an active session back unchanged (`Reload`).
  This needs the session's words to all belong to its filter and its last save to have gone through. See "Stored snapshot after a filter change" below for a reachable state where the first condition fails.

## Model

| member | source | states |
|---|---|---|
| Catalog.Select | script.js:124-151 | the selected words are exactly the words of records the filter keeps; there are never more of them than records |
| Catalog.WordsForFilter | script.js:121-153 | with no catalog list (absent, or parsed to something other than an array) every filter yields `[]`; otherwise a word is listed iff some record the filter keeps has it |
| Catalog.SelectKeepsInOrder | script.js:121-153 | for every filter, the result lists the words of the kept records in catalog order, each kept record once; there is a strictly increasing position list covering exactly the kept positions |
| Catalog.SelectAppend | script.js:129-151 | filtering a concatenation is the concatenation of the filtered parts, so catalog order is preserved |
| Catalog.SelectAll | script.js:124-126 | `all` returns every record's word, position by position, same length as the catalog |
| Catalog.ColumnFilterKeepsFilled | script.js:147-151 | a term-column filter keeps a record iff that column is present, not null and not `""`, in catalog order |
| Catalog.LearnedPartition | script.js:127-146 | `learned` and `not-learned` together hold every record's word exactly once: their lengths sum to the catalog's and their multisets sum to that of `all` |
| Catalog.LearnedIsThreeColumnTest | script.js:131-134 | a record is learned iff `au1`, `au2` or `sp1` is present, not null and not `""` |
| Catalog.LearnedDecidedByProgressTerms | script.js:131-144 | only `au1`, `au2` and `sp1` decide learned/not-learned: records that agree on those columns are classified alike |
| Catalog.ThreeWordsFilters | script.js:121-153 | cat(`au1`="x"), dog(`au1`=null), fox(`au1`="y"): `au1` and `learned` give `["cat","fox"]`, `not-learned` gives `["dog"]` |
| Catalog.AvailableFilters | script.js:354-369 | the result is strictly ascending (so duplicate-free); a column is listed iff it is one of the six term columns and some record fills it; no catalog list gives `[]` |
| Catalog.AvailableFiltersIsSortedSet | script.js:357-368 | any strictly sorted listing of the collected column set equals the result, so sorting the set has exactly this outcome |
| Catalog.MenuOptions | script.js:378-402 | the menu starts with `all`, `learned`, `not-learned`, followed by exactly the available term columns in their sorted order; all option values are distinct and non-empty |
| Catalog.StartupFilter | script.js:404-411 | the default is `au1` iff a loaded catalog fills `au1` somewhere, otherwise `all`; with no catalog loaded the initial `au1` stays |
| FisherYates.Pick | script.js:39 | the swap partner for cursor `i` lies in `0..i` |
| FisherYates.Shuffle | script.js:36-43 | the result has the input's length and multiset, and an input of at most one element comes back unchanged; the input itself is a value and is never modified |
| Persistence.Save | script.js:50-61 | an accepted write can be loaded back as the same snapshot; a rejected write leaves the store as it was |
| Persistence.Load | script.js:63-74 | a snapshot comes back iff one is stored; a vacant or unreadable entry reads as absent |
| Persistence.Clear | script.js:76-82 | an accepted removal makes the next load absent; a rejected one changes nothing |
| Persistence.SaveIdempotent | script.js:189-192 | the second save after a render (render saves, then the reset saves again) changes nothing |
| Persistence.SaveOverrides | script.js:195-205 | a later save overrides an earlier one, and clearing before a save makes no difference to the final entry |
| Session.ProgressOf | script.js:86-101 | `total` is the order's length; with words, `1 <= n <= total` and `n` is the 1-based position when the cursor is in range; prev is disabled iff the cursor is 0, next iff it is on the last word; with no words `n = 0` and both are disabled |
| Session.Render | script.js:108-119 | rendering keeps the session and, when the store accepts writes, leaves the entry mirroring it |
| Session.Prev | script.js:306-311 | steps back by one exactly when there are words and the cursor is above 0, then mirrors the session when the store accepts writes and leaves the entry untouched when it rejects them; otherwise nothing changes; order and filter never change; a valid cursor stays valid |
| Session.Next | script.js:313-318 | steps forward by one exactly when the cursor is below the last word, then mirrors the session when the store accepts writes and leaves the entry untouched when it rejects them; otherwise nothing changes; order and filter never change; a valid cursor stays valid |
| Session.ButtonsMatchNavigation | script.js:306-318 | for a valid cursor, the prev (next) button is disabled iff clicking it leaves the state unchanged |
| Session.NavigationKeepsConsistent | script.js:306-318 | an active session (non-empty order of the filter's words, cursor inside) stays active under both buttons |
| Session.StepsUndo | script.js:306-318 | next then prev, or prev then next, returns to the same session and storage entry when the entry mirrored the session |
| Session.AdvanceStopsAtEnd | script.js:313-318 | `k` next-clicks move the cursor to `min(index + k, total - 1)` and keep order and filter; once a step was taken an accepting store mirrors the session, a rejecting store is untouched, and clicks on the last word change nothing at all |
| Session.FreshStart | script.js:178-181 | a fresh start puts the cursor at 0 and orders a permutation of the words; the entry mirrors the session when the store accepts writes and is untouched when it rejects them |
| Session.StartSession | script.js:155-182 | with no words nothing changes; with a restore request, a stored snapshot with the same filter, a non-empty order, only words of the filter and an index inside its order is adopted verbatim; otherwise the cursor is 0 and the order is a permutation of the words; either way the result is an active session, mirrored in storage when the store accepts writes, with the entry untouched when it rejects them |
| Session.ResetSession | script.js:184-193 | with no words nothing changes; otherwise the cursor is 0, the order a permutation of the filter's words, the session is active, and the entry mirrors it when the store accepts writes (untouched when it rejects them) |
| Session.StartNewSession | script.js:195-205 | the stored entry is removed first; when the filter has no words, order and cursor stay and the entry stays removed if the removal was accepted; otherwise the session is a fresh permutation at 0, mirrored in storage when the store accepts writes (untouched when it rejects them) |
| Session.ChangeFilter | script.js:301-304 | the filter always becomes the chosen one; with words the session restarts at 0 on a permutation of them and is mirrored when the store accepts writes (entry untouched when it rejects them); without words order, cursor and entry stay, so an entry that mirrored the session stops mirroring it when the chosen filter differs from the previous one |
| Session.Init | script.js:430-445 | the filter is the stored snapshot's when it has a non-empty one, else the startup filter; an adoptable stored snapshot is resumed exactly; with words the session is active, mirrored when the store accepts writes and with the entry untouched when it rejects them; without words the state is the initial empty one; when a stored snapshot is absent or fails a check and there are words, the cursor is 0 and the order a permutation of the filter's words |
| Session.Reload | script.js:435-445 | after a reload, an active session (non-empty order of its filter's words, cursor inside, non-empty filter) whose entry mirrors it comes back identical (filter, order, cursor and entry) |

## Stored snapshot after a filter change

A natural reading of the page's design is that the stored snapshot always
equals the in-memory `{order, filter, index}` after a state-changing
operation, filter changes included. The code does not do this for a
filter that resolves to no words. Selecting such a filter (for example
`not-learned` when every word is learned) sets `selectedFilter`. But
`resetSession` returns before rendering (script.js:184-188), so order,
cursor and stored entry keep the previous filter's values.
`Session.ChangeFilter` follows the code and states this divergence in its
contract. Only a later render writes the new filter, and it writes it
together with the old filter's order.

This also affects reloads. Take a catalog where every word has `au1`, and
a running `au1` session. Choose `not-learned`, then click next. The click
renders and saves `{order, "not-learned", 1}` (script.js:313-318, 118).
On reload the stored filter becomes the selected one (script.js:438-439).
That filter has no words, so `startSession` returns at script.js:158-159
and no session is shown. `Session.Reload` promises the round trip only for
a session whose words all belong to its filter (`Consistent`), which this
state is not.

## Left out

- DOM rendering is left out: the word element, the progress text and bar, and `currentWord`.
  `Session.Render` keeps only the save that follows every render; `Session.ProgressOf` keeps the counter and button flags.
- The progress-bar percentage and `aria-valuenow` (script.js:90-92) are left out: they are floating-point display values.
- Event wiring is left out.
  The arrow keys (script.js:325-330) only click the same buttons while a session is active, so `Session.Prev`/`Session.Next` cover them.
  The button handlers read the disabled flags that the last render derived. Every change of order or cursor is followed by a render, so the model derives the flags from the current state.
- The confetti animation (script.js:208-295) and the resize handler (script.js:333-338) are left out.
  They are floating-point animation timed by the display refresh, and nothing in the session logic triggers them.
- The `setTimeout` delay at start-up is left out: `Session.Init` performs its effect in order.
- JSON parsing and storage I/O are left out.
  Stored text that does not parse, is empty or parses to a falsy value is `Slot.Unreadable`.
  A missing `order` is modelled as an empty order, and a missing `filter` as `""`. Both fail the same checks as in the source, because every filter the page can select is non-empty.
  A non-integer or non-numeric `index` is not modelled.
  Record values are strings or `null`; non-string JSON values are not modelled.
- Catalog entries are assumed to be objects with a string `word`, a stored `order` an array of strings, and a stored `filter` a string.
  The source's throwing paths for other shapes are not modelled:
  - A `null` entry makes `getWordsForFilter` throw (script.js:126, 131, 150). The throw is inside `startSession`, called from the uncaught start-up timer, so no session starts.
  - A `null` entry makes `getAvailableFilters` throw (script.js:362). `loadWords` catches it (script.js:424), so the menu build stops and the filter stays `au1`.
  - An entry without `word` puts `undefined` into the word list.
  - A stored `order` that is not an array but has a positive `length` (a non-empty string, say) makes `startSession` throw at script.js:167. Other truthy non-arrays (`5`, `{}`) fail the `length > 0` test at script.js:164 and lead to a fresh start, as the model's empty order does.
- Whether the host accepts writes and removals is fixed for the whole run. A run where some writes succeed and others fail is not modelled; for example `startNewSession`'s removal succeeding and its save then failing, which leaves no entry under an active session.
- A read that throws (storage disabled) is modelled like an unreadable entry; the model does not tie it to the write flag.
- Looking up a filter name that is an inherited JavaScript property (such as `constructor`) is not modelled.
  `item[f]` is modelled as the `word` field for `word` and as the term column otherwise.
- `populateFilters` returns early when the filter menu element is missing; the model assumes the element exists.
- The `WORDS` global only carries the resolved list within one handler, so the model uses a local value instead.
- FisherYates.Shuffle: states that the result is a permutation, not that every permutation is equally likely; the distribution of `Math.random` is not modelled.

=== FILE: catalog.dfy ===
/**
 * The word catalog: the list of word records loaded once at startup, the
 * filters that turn it into an ordered list of words, and the term columns
 * the filter menu offers.
 */
module Catalog {
  import opened Optional

  /** One record of the catalog: the word itself and its term columns.
      A column maps to `None` when the record holds `null` for it. */
  datatype WordRecord = WordRecord(word: string, terms: map<string, Option<string>>)

  /** The catalog as the page sees it after parsing the embedded data:
      never loaded (no data element, or the text did not parse), parsed
      but not a list, or a list of records. */
  datatype WordData = Unloaded | Malformed | Loaded(records: seq<WordRecord>)

  /** The term columns the filter menu knows about, in menu order. */
  const Terms: seq<string> := ["au1", "au2", "sp1", "sp2", "su1", "su2"]

  /** The columns that decide whether a word counts as learned. */
  const ProgressTerms: seq<string> := ["au1", "au2", "sp1"]

  /** The filter ids that are not term columns. */
  const All := "all"
  const LearnedId := "learned"
  const NotLearnedId := "not-learned"

  /** The value a property lookup `item[key]` yields: the `word` key is
      the record's word, every other key is a term column. */
  function Field(r: WordRecord, key: string): Option<string> {
    if key == "word" then Some(r.word)
    else if key in r.terms then r.terms[key]
    else None
  }

  /** The column is present, not null and not the empty string. */
  predicate Filled(r: WordRecord, key: string) {
    Field(r, key).Some? && Field(r, key).value != ""
  }

  /** A record is learned when at least one progress column is filled. */
  predicate Learned(r: WordRecord) {
    exists t :: t in ProgressTerms && Filled(r, t)
  }

  /** Whether filter `f` keeps record `r`. */
  predicate Matches(r: WordRecord, f: string) {
    if f == All then true
    else if f == LearnedId then Learned(r)
    else if f == NotLearnedId then !Learned(r)
    else Filled(r, f)
  }

  /** The words of the records `f` keeps, in catalog order. */
  function Select(rs: seq<WordRecord>, f: string): (ws: seq<string>)
    ensures |ws| <= |rs|
    ensures forall w :: w in ws <==> exists i :: 0 <= i < |rs| && Matches(rs[i], f) && rs[i].word == w
  {
    if rs == [] then []
    else
      var rest := Select(rs[1..], f);
      assert forall i :: 1 <= i < |rs| ==> rs[i] == rs[1..][i - 1];
      if Matches(rs[0], f) then [rs[0].word] + rest else rest
  }

  /** The ordered word list filter `f` resolves to; empty when there is
      no catalog list at all. */
  function WordsForFilter(c: WordData, f: string): (ws: seq<string>)
    ensures !c.Loaded? ==> ws == []
    ensures c.Loaded? ==> forall w :: w in ws <==>
      exists i :: 0 <= i < |c.records| && Matches(c.records[i], f) && c.records[i].word == w
  {
    match c
    case Loaded(rs) => Select(rs, f)
    case _ => []
  }

  /** Selecting from a concatenation selects from each part in turn: the
      catalog order of the kept words is preserved. */
  lemma {:induction false} SelectAppend(a: seq<WordRecord>, b: seq<WordRecord>, f: string)
    ensures Select(a + b, f) == Select(a, f) + Select(b, f)
  {
    if a == [] {
      assert a + b == b;
    } else {
      assert (a + b)[1..] == a[1..] + b;
      SelectAppend(a[1..], b, f);
    }
  }

  /** `all` yields every record's word, position by position. */
  lemma {:induction false} SelectAll(rs: seq<WordRecord>)
    ensures |Select(rs, All)| == |rs|
    ensures forall i :: 0 <= i < |rs| ==> Select(rs, All)[i] == rs[i].word
  {
    if rs != [] {
      SelectAll(rs[1..]);
    }
  }

  /** `ws` lists the words of the records at positions `idx`, in turn. */
  ghost predicate ListsWordsAt(rs: seq<WordRecord>, ws: seq<string>, idx: seq<nat>) {
    && |idx| == |ws|
    && forall k :: 0 <= k < |idx| ==> idx[k] < |rs| && ws[k] == rs[idx[k]].word
  }

  ghost predicate Increasing(idx: seq<nat>) {
    forall k, l :: 0 <= k < l < |idx| ==> idx[k] < idx[l]
  }

  /** `idx` holds exactly the positions whose record `f` keeps. */
  ghost predicate ExactlyKept(rs: seq<WordRecord>, f: string, idx: seq<nat>) {
    forall i :: 0 <= i < |rs| ==> (Matches(rs[i], f) <==> i in idx)
  }

  /** `ws` lists, in order, the words of the records at the increasing
      positions `idx`, and `idx` holds exactly the positions whose record
      `f` keeps: each kept record contributes its word once, in catalog
      order, and nothing else is listed. */
  ghost predicate KeptInOrder(rs: seq<WordRecord>, f: string, ws: seq<string>, idx: seq<nat>) {
    ListsWordsAt(rs, ws, idx) && Increasing(idx) && ExactlyKept(rs, f, idx)
  }

  /** Every position moved one place on. A proof aid for the
      positional characterization below, not a property of the source. */
  function Shift(idx: seq<nat>): (r: seq<nat>)
    ensures |r| == |idx| && forall k :: 0 <= k < |idx| ==> r[k] == idx[k] + 1
  {
    seq(|idx|, k requires 0 <= k < |idx| => idx[k] + 1)
  }

  /** The positions of the records `f` keeps, ascending. */
  function KeptPositions(rs: seq<WordRecord>, f: string): (idx: seq<nat>)
  {
    if rs == [] then []
    else (if Matches(rs[0], f) then [0] else []) + Shift(KeptPositions(rs[1..], f))
  }

  lemma ListsWordsAtCons(r: WordRecord, tail: seq<WordRecord>, ws: seq<string>, idx: seq<nat>, keep: bool)
    requires ListsWordsAt(tail, ws, idx)
    ensures ListsWordsAt([r] + tail, (if keep then [r.word] else []) + ws, (if keep then [0] else []) + Shift(idx))
  {
  }

  lemma IncreasingCons(idx: seq<nat>, keep: bool)
    requires Increasing(idx)
    ensures Increasing((if keep then [0] else []) + Shift(idx))
  {
  }

  lemma ExactlyKeptCons(r: WordRecord, tail: seq<WordRecord>, f: string, idx: seq<nat>)
    requires ExactlyKept(tail, f, idx)
    ensures ExactlyKept([r] + tail, f, (if Matches(r, f) then [0] else []) + Shift(idx))
  {
  }

  /** Whatever the filter, the resolved list is the ordered selection of the
      kept records' words. */
  lemma {:induction false} SelectKeepsInOrder(rs: seq<WordRecord>, f: string)
    ensures KeptInOrder(rs, f, Select(rs, f), KeptPositions(rs, f))
  {
    if rs != [] {
      var tail := rs[1..];
      SelectKeepsInOrder(tail, f);
      var keep := Matches(rs[0], f);
      ListsWordsAtCons(rs[0], tail, Select(tail, f), KeptPositions(tail, f), keep);
      IncreasingCons(KeptPositions(tail, f), keep);
      ExactlyKeptCons(rs[0], tail, f, KeptPositions(tail, f));
      assert [rs[0]] + tail == rs;
    }
  }

  /** A term-column filter keeps exactly the records whose column is
      filled. */
  lemma ColumnFilterKeepsFilled(rs: seq<WordRecord>, f: string)
    requires f != All && f != LearnedId && f != NotLearnedId
    ensures KeptInOrder(rs, f, Select(rs, f), KeptPositions(rs, f))
    ensures forall i :: 0 <= i < |rs| ==> (i in KeptPositions(rs, f) <==> Filled(rs[i], f))
  {
    SelectKeepsInOrder(rs, f);
  }

  /** `learned` and `not-learned` split the catalog: together they hold each
      record's word exactly once, and their sizes add up to the catalog's. */
  lemma {:induction false} LearnedPartition(rs: seq<WordRecord>)
    ensures |Select(rs, LearnedId)| + |Select(rs, NotLearnedId)| == |rs|
    ensures multiset(Select(rs, LearnedId)) + multiset(Select(rs, NotLearnedId)) == multiset(Select(rs, All))
  {
    if rs != [] {
      LearnedPartition(rs[1..]);
    }
  }

  /** Learnedness is the source's three-way test on `au1`, `au2`, `sp1`. */
  lemma LearnedIsThreeColumnTest(r: WordRecord)
    ensures Learned(r) <==> Filled(r, "au1") || Filled(r, "au2") || Filled(r, "sp1")
  {
  }

  /** Only the progress columns decide learnedness: two records that agree
      on whether `au1`, `au2` and `sp1` are filled agree on both filters. */
  lemma LearnedDecidedByProgressTerms(r1: WordRecord, r2: WordRecord)
    requires forall t :: t in ProgressTerms ==> (Filled(r1, t) <==> Filled(r2, t))
    ensures Matches(r1, LearnedId) == Matches(r2, LearnedId)
    ensures Matches(r1, NotLearnedId) == Matches(r2, NotLearnedId)
  {
  }

  /** Three records, two of them with an `au1` value and one with `null`. */
  function ThreeWords(): seq<WordRecord> {
    [WordRecord("cat", map["au1" := Some("x")]),
     WordRecord("dog", map["au1" := None]),
     WordRecord("fox", map["au1" := Some("y")])]
  }

  lemma ThreeWordsFilters()
    ensures WordsForFilter(Loaded(ThreeWords()), "au1") == ["cat", "fox"]
    ensures WordsForFilter(Loaded(ThreeWords()), LearnedId) == ["cat", "fox"]
    ensures WordsForFilter(Loaded(ThreeWords()), NotLearnedId) == ["dog"]
  {
  }

  /** Lexicographic string order, a proper prefix first. On ASCII text,
      which is all that is ever sorted here (the six term labels), this is
      JavaScript's default sort order; beyond that the two can differ,
      since JavaScript compares UTF-16 code units. */
  predicate Precedes(a: string, b: string)
    decreases |a|
  {
    if a == [] then b != []
    else if b == [] then false
    else a[0] < b[0] || (a[0] == b[0] && Precedes(a[1..], b[1..]))
  }

  /** Ascending and free of duplicates. */
  predicate StrictlySorted(s: seq<string>) {
    forall i, j :: 0 <= i < j < |s| ==> Precedes(s[i], s[j])
  }

  lemma {:induction false} PrecedesIrreflexive(a: string)
    ensures !Precedes(a, a)
  {
    if a != [] {
      PrecedesIrreflexive(a[1..]);
    }
  }

  lemma TermsSorted()
    ensures StrictlySorted(Terms)
  {
  }

  lemma {:induction false} PrecedesAsymmetric(a: string, b: string)
    requires Precedes(a, b)
    ensures !Precedes(b, a)
  {
    if a != [] && b != [] && a[0] == b[0] {
      PrecedesAsymmetric(a[1..], b[1..]);
    }
  }

  lemma SameElementsBothEmpty(s: seq<string>, t: seq<string>)
    requires forall x :: x in s <==> x in t
    ensures s == [] <==> t == []
  {
    if s != [] { assert s[0] in s; }
    if t != [] { assert t[0] in t; }
  }

  /** A strictly sorted sequence is fixed by its elements: sorting a set
      has exactly one outcome. */
  lemma {:induction false} SortedUnique(s: seq<string>, t: seq<string>)
    requires StrictlySorted(s) && StrictlySorted(t)
    requires forall x :: x in s <==> x in t
    ensures s == t
  {
    SameElementsBothEmpty(s, t);
    if s == [] || t == [] {
    } else {
      assert s[0] in t;
      var k :| 0 <= k < |t| && t[k] == s[0];
      if k > 0 {
        assert t[0] in s;
        var m :| 0 <= m < |s| && s[m] == t[0];
        assert Precedes(t[0], t[k]);
        if m == 0 {
          PrecedesIrreflexive(t[0]);
        } else {
          assert Precedes(s[0], s[m]);
          PrecedesAsymmetric(t[0], s[0]);
        }
        assert false;
      }
      forall x | x in s[1..]
        ensures x in t[1..]
      {
        var i :| 1 <= i < |s| && s[i] == x;
        assert Precedes(s[0], x);
        PrecedesIrreflexive(x);
        assert x in t;
        var j :| 0 <= j < |t| && t[j] == x;
        assert j != 0;
      }
      forall x | x in t[1..]
        ensures x in s[1..]
      {
        var j :| 1 <= j < |t| && t[j] == x;
        assert Precedes(t[0], x);
        PrecedesIrreflexive(x);
        assert x in s;
        var i :| 0 <= i < |s| && s[i] == x;
        assert i != 0;
      }
      SortedUnique(s[1..], t[1..]);
      assert s == [s[0]] + s[1..] && t == [t[0]] + t[1..];
    }
  }

  /** The term columns some record fills; the source collects them into a
      set while walking the records. */
  function UsedTerms(rs: seq<WordRecord>): (used: set<string>)
    ensures forall t :: t in used <==> t in Terms && exists i :: 0 <= i < |rs| && Filled(rs[i], t)
  {
    if rs == [] then {}
    else
      var rest := UsedTerms(rs[1..]);
      assert forall i :: 1 <= i < |rs| ==> rs[i] == rs[1..][i - 1];
      (set t | t in Terms && Filled(rs[0], t)) + rest
  }

  /** The elements of `ts` that lie in `s`, in the order of `ts`. */
  function Keep(ts: seq<string>, s: set<string>): (r: seq<string>)
    ensures forall t :: t in r <==> t in ts && t in s
  {
    if ts == [] then []
    else (if ts[0] in s then [ts[0]] else []) + Keep(ts[1..], s)
  }

  lemma {:induction false} KeepSorted(ts: seq<string>, s: set<string>)
    requires StrictlySorted(ts)
    ensures StrictlySorted(Keep(ts, s))
  {
    if ts != [] {
      KeepSorted(ts[1..], s);
      var rest := Keep(ts[1..], s);
      assert forall j :: 0 <= j < |rest| ==> rest[j] in ts[1..];
      assert forall j :: 0 <= j < |rest| ==> Precedes(ts[0], rest[j]);
    }
  }

  /** The term columns the filter menu offers: those some record fills,
      ascending, each once. */
  function AvailableFilters(c: WordData): (fs: seq<string>)
    ensures StrictlySorted(fs)
    ensures forall t :: t in fs <==>
      c.Loaded? && t in Terms && exists i :: 0 <= i < |c.records| && Filled(c.records[i], t)
  {
    match c
    case Loaded(rs) =>
      TermsSorted();
      KeepSorted(Terms, UsedTerms(rs));
      Keep(Terms, UsedTerms(rs))
    case _ => []
  }

  /** Whatever order a sort of the collected set produces, it is the list
      above: the strictly sorted listing of the used columns is unique. */
  lemma AvailableFiltersIsSortedSet(c: WordData, s: seq<string>)
    requires c.Loaded?
    requires StrictlySorted(s)
    requires forall t :: t in s <==> t in UsedTerms(c.records)
    ensures s == AvailableFilters(c)
  {
    SortedUnique(s, AvailableFilters(c));
  }

  /** A strictly sorted sequence has no repeated element. */
  lemma StrictlySortedDistinct(s: seq<string>)
    requires StrictlySorted(s)
    ensures forall i, j :: 0 <= i < j < |s| ==> s[i] != s[j]
  {
    forall i, j | 0 <= i < j < |s| ensures s[i] != s[j] {
      PrecedesIrreflexive(s[i]);
    }
  }

  /** The options of the filter menu: the three fixed filters, then the
      available columns. */
  function MenuOptions(c: WordData): (opts: seq<string>)
    ensures |opts| >= 3 && opts[..3] == [All, LearnedId, NotLearnedId]
    ensures opts[3..] == AvailableFilters(c)
    ensures forall i, j :: 0 <= i < j < |opts| ==> opts[i] != opts[j]
    ensures forall o :: o in opts ==> o != ""
  {
    var fs := AvailableFilters(c);
    StrictlySortedDistinct(fs);
    assert All !in Terms && LearnedId !in Terms && NotLearnedId !in Terms;
    assert forall k :: 0 <= k < |fs| ==> fs[k] in Terms;
    [All, LearnedId, NotLearnedId] + fs
  }

  /** The filter selected at startup: `au1` when some record fills it,
      otherwise `all`. When the catalog never loaded the menu is never
      built and the initial `au1` stays. */
  function StartupFilter(c: WordData): (f: string)
    ensures c.Unloaded? ==> f == "au1"
    ensures !c.Unloaded? ==> (f == "au1" <==> c.Loaded? && exists i :: 0 <= i < |c.records| && Filled(c.records[i], "au1"))
    ensures f == "au1" || f == All
  {
    if c.Unloaded? then "au1"
    else if "au1" in AvailableFilters(c) then "au1"
    else All
  }
}

=== FILE: optional.dfy ===
/** A value that may be absent: JSON `null` or a missing key. */
module Optional {

  datatype Option<+T> = None | Some(value: T)
}

=== FILE: persistence.dfy ===
/**
 * The durable snapshot of a session, kept under one fixed key of the
 * browser's key-value storage. Storage failures are swallowed: a write or
 * removal that fails leaves the entry as it was, and an entry that cannot
 * be read back counts as absent.
 */
module Persistence {
  import opened Optional

  /** What a session needs to resume: its order, its filter, its position. */
  datatype Snapshot = Snapshot(order: seq<string>, filter: string, index: int)

  /** The entry under the storage key: none, one whose text does not parse
      (or is empty or parses to a falsy value), or a snapshot. */
  datatype Slot = Vacant | Unreadable | Holds(snapshot: Snapshot)

  /** The storage as the session sees it: the entry, and whether the host
      accepts writes and removals during this run (quota and privacy settings can
      make both throw). */
  datatype Store = Store(slot: Slot, accepts: bool)

  /** Writes `s` under the key; a rejected write changes nothing. */
  function Save(st: Store, s: Snapshot): (st': Store)
    ensures st'.accepts == st.accepts
    ensures st.accepts ==> Load(st') == Some(s)
    ensures !st.accepts ==> st' == st
  {
    if st.accepts then st.(slot := Holds(s)) else st
  }

  /** Reads the entry back: a snapshot only when one was stored. */
  function Load(st: Store): (r: Option<Snapshot>)
    ensures r.Some? <==> st.slot.Holds?
    ensures r.Some? ==> st.slot == Holds(r.value)
  {
    match st.slot
    case Holds(s) => Some(s)
    case _ => None
  }

  /** Removes the entry; a rejected removal changes nothing. */
  function Clear(st: Store): (st': Store)
    ensures st'.accepts == st.accepts
    ensures st.accepts ==> Load(st') == None
    ensures !st.accepts ==> st' == st
  {
    if st.accepts then st.(slot := Vacant) else st
  }

  /** Saving the same snapshot twice leaves what saving it once does. */
  lemma SaveIdempotent(st: Store, s: Snapshot)
    ensures Save(Save(st, s), s) == Save(st, s)
  {
  }

  /** A later save overrides an earlier one, and clearing before saving
      makes no difference once the save goes through. */
  lemma SaveOverrides(st: Store, s1: Snapshot, s2: Snapshot)
    ensures Save(Save(st, s1), s2) == Save(st, s2)
    ensures Save(Clear(st), s2) == Save(st, s2)
  {
  }
}

=== FILE: session.dfy ===
/**
 * The session engine: the selected filter, the shuffled order of words and
 * the cursor into it, together with the storage entry that mirrors them.
 * Every operation returns the next engine value; rendering is reduced to
 * the progress readout and the save that follows it.
 */
module Session {
  import opened Optional
  import opened Catalog
  import opened FisherYates
  import opened Persistence

  /** The page's session state and the storage it writes to. */
  datatype Engine = Engine(filter: string, order: seq<string>, index: int, store: Store)

  /** What the progress readout and the two navigation buttons show. */
  datatype Progress = Progress(n: int, total: nat, prevDisabled: bool, nextDisabled: bool)

  function SnapshotOf(e: Engine): Snapshot {
    Snapshot(e.order, e.filter, e.index)
  }

  /** The storage entry holds exactly the in-memory session. */
  predicate Mirrors(e: Engine) {
    Load(e.store) == Some(SnapshotOf(e))
  }

  /** The cursor points into the order, or the order is still empty. */
  predicate Positioned(e: Engine) {
    (e.order == [] && e.index == 0) || 0 <= e.index < |e.order|
  }

  /** An active session: a non-empty order of words the filter resolves to,
      and a cursor inside it. */
  predicate Consistent(c: WordData, e: Engine) {
    && |e.order| > 0
    && 0 <= e.index < |e.order|
    && forall k :: 0 <= k < |e.order| ==> e.order[k] in WordsForFilter(c, e.filter)
  }

  /** The checks a loaded snapshot must pass to be resumed under filter `f`
      whose words are `ws`. */
  predicate Adoptable(s: Snapshot, f: string, ws: seq<string>) {
    && s.filter == f
    && |s.order| > 0
    && (forall k :: 0 <= k < |s.order| ==> s.order[k] in ws)
    && 0 <= s.index < |s.order|
  }

  /** The counter `n / total` and the button states. The counter is the
      1-based position, clamped to `1..total`, and `0` with no words. */
  function ProgressOf(e: Engine): (p: Progress)
    ensures p.total == |e.order|
    ensures p.total == 0 ==> p.n == 0 && p.prevDisabled && p.nextDisabled
    ensures p.total > 0 ==> 1 <= p.n <= p.total
    ensures 0 <= e.index < p.total ==> p.n == e.index + 1
    ensures p.total > 0 ==> (p.prevDisabled <==> e.index == 0)
    ensures p.total > 0 ==> (p.nextDisabled <==> e.index == p.total - 1)
  {
    var total := |e.order|;
    var atLeastOne := if e.index + 1 < 1 then 1 else e.index + 1;
    var n := if total < atLeastOne then total else atLeastOne;
    if total > 0 then Progress(n, total, e.index == 0, e.index == total - 1)
    else Progress(n, total, true, true)
  }

  /** Shows the current word and saves the session. */
  function Render(e: Engine): (e': Engine)
    ensures e'.filter == e.filter && e'.order == e.order && e'.index == e.index
    ensures e'.store.accepts == e.store.accepts
    ensures e.store.accepts ==> Mirrors(e')
    ensures !e.store.accepts ==> e' == e
  {
    e.(store := Save(e.store, SnapshotOf(e)))
  }

  /** The previous-word button: steps back unless the cursor is at the
      first word, and renders after the step. */
  function Prev(e: Engine): (e': Engine)
    ensures e'.filter == e.filter && e'.order == e.order
    ensures e'.store.accepts == e.store.accepts
    ensures |e.order| > 0 && e.index > 0 ==> e'.index == e.index - 1 && (e.store.accepts ==> Mirrors(e'))
    ensures !e.store.accepts ==> e'.store == e.store
    ensures !(|e.order| > 0 && e.index > 0) ==> e' == e
    ensures Positioned(e) ==> Positioned(e')
  {
    if !ProgressOf(e).prevDisabled && e.index > 0 then Render(e.(index := e.index - 1))
    else e
  }

  /** The next-word button: steps forward unless the cursor is at the last
      word, and renders after the step. */
  function Next(e: Engine): (e': Engine)
    ensures e'.filter == e.filter && e'.order == e.order
    ensures e'.store.accepts == e.store.accepts
    ensures |e.order| > 0 && e.index < |e.order| - 1 ==> e'.index == e.index + 1 && (e.store.accepts ==> Mirrors(e'))
    ensures !e.store.accepts ==> e'.store == e.store
    ensures !(|e.order| > 0 && e.index < |e.order| - 1) ==> e' == e
    ensures Positioned(e) ==> Positioned(e')
  {
    if !ProgressOf(e).nextDisabled && e.index < |e.order| - 1 then Render(e.(index := e.index + 1))
    else e
  }

  /** A disabled button is exactly a button whose click changes nothing. */
  lemma ButtonsMatchNavigation(e: Engine)
    requires Positioned(e)
    ensures ProgressOf(e).prevDisabled <==> Prev(e) == e
    ensures ProgressOf(e).nextDisabled <==> Next(e) == e
  {
  }

  /** Navigation keeps an active session active: it never touches the order
      or the filter. */
  lemma NavigationKeepsConsistent(c: WordData, e: Engine)
    requires Consistent(c, e)
    ensures Consistent(c, Prev(e)) && Consistent(c, Next(e))
  {
  }

  /** Stepping forward and then back returns to the same session and the
      same storage entry; so does stepping back and then forward. */
  lemma StepsUndo(e: Engine)
    requires Positioned(e)
    requires Mirrors(e) || !e.store.accepts
    ensures e.index < |e.order| - 1 ==> Prev(Next(e)) == e
    ensures e.index > 0 ==> Next(Prev(e)) == e
  {
  }

  /** `k` clicks on the next-word button. */
  function Advance(e: Engine, k: nat): Engine
    decreases k
  {
    if k == 0 then e else Advance(Next(e), k - 1)
  }

  /** Repeated forward steps stop at the last word. Once a step has been
      taken the entry mirrors the session; clicks on the last word change
      nothing at all. */
  lemma {:induction false} AdvanceStopsAtEnd(e: Engine, k: nat)
    requires |e.order| > 0 && 0 <= e.index < |e.order|
    ensures Advance(e, k).order == e.order && Advance(e, k).filter == e.filter
    ensures Advance(e, k).index == if e.index + k < |e.order| - 1 then e.index + k else |e.order| - 1
    ensures e.index == |e.order| - 1 ==> Advance(e, k) == e
    ensures k > 0 && e.index < |e.order| - 1 && e.store.accepts ==> Mirrors(Advance(e, k))
    ensures !e.store.accepts ==> Advance(e, k).store == e.store
    decreases k
  {
    if k > 0 {
      AdvanceStopsAtEnd(Next(e), k - 1);
    }
  }

  /** A new order for `ws` with the cursor on its first word, rendered. */
  method FreshStart(e: Engine, ws: seq<string>, rand: Oracle) returns (e': Engine)
    ensures e'.filter == e.filter && e'.index == 0
    ensures multiset(e'.order) == multiset(ws)
    ensures e'.store.accepts == e.store.accepts
    ensures e.store.accepts ==> Mirrors(e')
    ensures !e.store.accepts ==> e'.store == e.store
  {
    var order := Shuffle(ws, rand);
    e' := Render(e.(index := 0, order := order));
  }

  /** A fresh order of the filter's words holds only those words. */
  lemma FreshOrderConsistent(c: WordData, e: Engine)
    requires e.index == 0
    requires multiset(e.order) == multiset(WordsForFilter(c, e.filter))
    requires WordsForFilter(c, e.filter) != []
    ensures Consistent(c, e)
  {
    var ws := WordsForFilter(c, e.filter);
    assert ws[0] in multiset(ws);
    forall k | 0 <= k < |e.order| ensures e.order[k] in ws {
      assert e.order[k] in multiset(e.order);
    }
  }

  /** Starts a session for the current filter. With `restore`, a stored
      snapshot that passes every check is resumed as it is; otherwise the
      filter's words are shuffled and the cursor goes to the first one.
      A filter without words leaves everything as it was. */
  method StartSession(c: WordData, e: Engine, restore: bool, rand: Oracle) returns (e': Engine)
    ensures e'.filter == e.filter
    ensures e'.store.accepts == e.store.accepts
    ensures WordsForFilter(c, e.filter) == [] ==> e' == e
    ensures WordsForFilter(c, e.filter) != [] ==>
      Consistent(c, e') && (e.store.accepts ==> Mirrors(e')) && (!e.store.accepts ==> e'.store == e.store)
    ensures WordsForFilter(c, e.filter) != [] && restore && Load(e.store).Some?
            && Adoptable(Load(e.store).value, e.filter, WordsForFilter(c, e.filter)) ==>
      e'.order == Load(e.store).value.order && e'.index == Load(e.store).value.index
    ensures WordsForFilter(c, e.filter) != []
            && !(restore && Load(e.store).Some? && Adoptable(Load(e.store).value, e.filter, WordsForFilter(c, e.filter))) ==>
      e'.index == 0 && multiset(e'.order) == multiset(WordsForFilter(c, e.filter))
  {
    var ws := WordsForFilter(c, e.filter);
    if ws == [] {
      return e;
    }
    if restore {
      var saved := Load(e.store);
      if saved.Some? && saved.value.filter == e.filter && |saved.value.order| > 0 {
        var valid := forall k :: 0 <= k < |saved.value.order| ==> saved.value.order[k] in ws;
        if valid && saved.value.index >= 0 && saved.value.index < |saved.value.order| {
          e' := Render(e.(order := saved.value.order, index := saved.value.index));
          return;
        }
      }
    }
    e' := FreshStart(e, ws, rand);
    FreshOrderConsistent(c, e'.(store := e.store));
  }

  /** Reshuffles the current filter's words and starts from the first one;
      used when the filter changes. A filter without words changes nothing. */
  method ResetSession(c: WordData, e: Engine, rand: Oracle) returns (e': Engine)
    ensures e'.filter == e.filter
    ensures e'.store.accepts == e.store.accepts
    ensures WordsForFilter(c, e.filter) == [] ==> e' == e
    ensures WordsForFilter(c, e.filter) != [] ==>
      && e'.index == 0
      && multiset(e'.order) == multiset(WordsForFilter(c, e.filter))
      && Consistent(c, e')
      && (e.store.accepts ==> Mirrors(e'))
      && (!e.store.accepts ==> e'.store == e.store)
  {
    var ws := WordsForFilter(c, e.filter);
    if ws == [] {
      return e;
    }
    e' := FreshStart(e, ws, rand);
    e' := e'.(store := Save(e'.store, SnapshotOf(e')));
    FreshOrderConsistent(c, e');
  }

  /** The start-new button: removes the stored snapshot, then starts afresh
      like a reset. With no words for the filter the entry stays removed and
      the session is otherwise untouched. */
  method StartNewSession(c: WordData, e: Engine, rand: Oracle) returns (e': Engine)
    ensures e'.filter == e.filter
    ensures e'.store.accepts == e.store.accepts
    ensures WordsForFilter(c, e.filter) == [] ==>
      e'.order == e.order && e'.index == e.index && e'.store == Clear(e.store)
    ensures WordsForFilter(c, e.filter) == [] && e.store.accepts ==> Load(e'.store) == None
    ensures WordsForFilter(c, e.filter) != [] ==>
      && e'.index == 0
      && multiset(e'.order) == multiset(WordsForFilter(c, e.filter))
      && Consistent(c, e')
      && (e.store.accepts ==> Mirrors(e'))
      && (!e.store.accepts ==> e'.store == e.store)
  {
    var cleared := e.(store := Clear(e.store));
    e' := ResetSession(c, cleared, rand);
  }

  /** The filter menu: selects `f` and resets the session for it. Changing
      the filter never resumes an earlier position. When `f` has no words
      only the selected filter changes: the order, the cursor and the stored
      entry stay those of the previous filter. */
  method ChangeFilter(c: WordData, e: Engine, f: string, rand: Oracle) returns (e': Engine)
    ensures e'.filter == f
    ensures e'.store.accepts == e.store.accepts
    ensures WordsForFilter(c, f) == [] ==>
      e'.order == e.order && e'.index == e.index && e'.store == e.store
    ensures WordsForFilter(c, f) == [] && Mirrors(e) && f != e.filter ==> !Mirrors(e')
    ensures WordsForFilter(c, f) != [] ==>
      && e'.index == 0
      && multiset(e'.order) == multiset(WordsForFilter(c, f))
      && Consistent(c, e')
      && (e.store.accepts ==> Mirrors(e'))
      && (!e.store.accepts ==> e'.store == e.store)
  {
    e' := ResetSession(c, e.(filter := f), rand);
  }

  /** Page start: the filter is `au1`, then the menu's default, then the
      stored snapshot's filter when it has one; the session then starts
      with an attempt to resume the stored snapshot. */
  method Init(c: WordData, store: Store, rand: Oracle) returns (e: Engine)
    ensures e.store.accepts == store.accepts
    ensures Load(store).Some? && Load(store).value.filter != "" ==> e.filter == Load(store).value.filter
    ensures !(Load(store).Some? && Load(store).value.filter != "") ==> e.filter == StartupFilter(c)
    ensures WordsForFilter(c, e.filter) == [] ==> e.order == [] && e.index == 0 && e.store == store
    ensures WordsForFilter(c, e.filter) != [] ==>
      Consistent(c, e) && (store.accepts ==> Mirrors(e)) && (!store.accepts ==> e.store == store)
    ensures Load(store).Some? && Adoptable(Load(store).value, e.filter, WordsForFilter(c, e.filter)) ==>
      e.order == Load(store).value.order && e.index == Load(store).value.index
    ensures WordsForFilter(c, e.filter) != []
            && !(Load(store).Some? && Adoptable(Load(store).value, e.filter, WordsForFilter(c, e.filter))) ==>
      e.index == 0 && multiset(e.order) == multiset(WordsForFilter(c, e.filter))
  {
    var start := Engine(StartupFilter(c), [], 0, store);
    var saved := Load(store);
    if saved.Some? && saved.value.filter != "" {
      start := start.(filter := saved.value.filter);
    }
    var ws := WordsForFilter(c, start.filter);
    if saved.Some? && Adoptable(saved.value, start.filter, ws) {
      assert ws != [] by { assert saved.value.order[0] in ws; }
    }
    e := StartSession(c, start, true, rand);
  }

  /** A page reload: memory is lost and only the storage survives. An active
      session (its words all belong to its filter) whose snapshot was saved
      comes back exactly as it was. */
  method Reload(c: WordData, e: Engine, rand: Oracle) returns (e': Engine)
    ensures Consistent(c, e) && Mirrors(e) && e.filter != "" ==> e' == e
    ensures Consistent(c, e') || (e'.order == [] && e'.store == e.store)
  {
    e' := Init(c, e.store, rand);
  }
}

=== FILE: shuffle.dfy ===
/**
 * The Fisher-Yates shuffle that orders a fresh session. The random draws
 * are supplied by the caller.
 */
module FisherYates {

  /** A source of random draws: `rand(i)` is the draw taken when the cursor
      stands at position `i`. */
  type Oracle = nat -> nat

  /** The swap partner for position `i`, always in `0..i`, as
      `Math.floor(Math.random() * (i + 1))` is. */
  function Pick(rand: Oracle, i: nat): (j: nat)
    ensures j <= i
  {
    rand(i) % (i + 1)
  }

  /** Shuffles a copy of `xs`: walks the cursor from the last position down
      to 1 and swaps each element with one at or before it. The result holds
      the same elements as often as `xs`, and a list of at most one element
      comes back as it was. */
  method Shuffle<T>(xs: seq<T>, rand: Oracle) returns (r: seq<T>)
    ensures |r| == |xs|
    ensures multiset(r) == multiset(xs)
    ensures |xs| <= 1 ==> r == xs
  {
    var a := xs;
    var i := |a| - 1;
    while i > 0
      invariant |a| == |xs|
      invariant i < |a|
      invariant multiset(a) == multiset(xs)
      invariant |xs| <= 1 ==> a == xs
      decreases i
    {
      var j := Pick(rand, i);
      a := a[i := a[j]][j := a[i]];
      i := i - 1;
    }
    r := a;
  }
}
